=== FILE: README.md ===
# A verified model of the ctools dynamic array

This project models the type-erased dynamic array of the ctools C library
(`ct_list.c`) in Dafny. A C `List` holds a raw byte buffer (`nodes`), a live
element count (`size`), a slot count (`capacity`), a growth factor
(`resize_factor`) and an element width (`type_size`). The model keeps the same
record as `List<T>(elems, capacity, factor, typeSize)`:

- `elems: seq<T>` holds the live elements in index order;
- `memcmp` byte equality is Dafny equality on `T`;
- the capacity is a number of slots, so the memory-safety invariant
  `length <= capacity` (`Valid`) can be stated and checked for every operation.

Operations that change a list are pure functions or methods that take a list
value and return the new one. Queries (`find`, `compare`, `all`, `any`,
`max`, `min`, `len`, `size`) return their answer and leave the list alone.
The source is the single file `ct_list.c`. The model groups its functions
into five modules:

- `Lists` (`lists.dfy`): the record, the initializers, the growth step
  `ct_list_resize`, `len` and `size`.
- `ListEdit` (`list_edit.dfy`): append, insert, alloc_pos, get, replace and the
  remove_pos family.
- `ListRemoveVal` (`list_remove_val.dfy`): batched value removal and the proof
  that its recorded index `i - delete_count` is correct.
- `ListStructure` (`list_structure.dfy`): find, compare, swap, reverse, cat,
  copy and clear.
- `ListScan` (`list_scan.dfy`): all, any, max and min.

Three behaviours of the code shape the model:

- `ct_list_resize` runs after the length was raised. It multiplies the
  capacity by the factor once, when the new length has reached the capacity
  (ct_list.c:24-26). After a single append or insert on a valid list with
  factor at least 2 and a nonzero capacity, the length is therefore at most
  the capacity, and strictly below it once the capacity is at least 2
  (`ListEdit.OneAdditionLeavesRoom`). A list of capacity 1 does fill up: an
  append to `[7]` in 1 slot leaves 2 elements in 2 slots. Operations that add
  many elements at once (`cat`, `copy`) or lists with factor 1 can end
  exactly full, or overfull.
- `ct_list_remove_val` records positions in a table of 1024 entries
  (ct_list.c:6, 120), but its scan loop only stops at `count` matches
  (ct_list.c:123). `RemoveValAsWritten` follows both loops with an unbounded
  table; the corrected `RemoveVal` stops the scan when the table is full (see
  Findings).
- An insert without a value at `pos < len` leaves slot `pos` holding a copy of
  the element that was there, because the move copies it one slot right and
  nothing overwrites the original (ct_list.c:68-70). `Insert` states this.
  The same move copies one slot more than the old elements from `pos` on, so
  it ends one slot past the new last element; see Findings.

## Model

| member | source | states |
|---|---|---|
| `Lists.InitEx` | ct_list.c:12-21 | the new list is empty and valid, with exactly the requested element width, capacity and factor |
| `Lists.Init` | ct_list.c:4-10 | the plain initializer gives an empty valid list of zero bytes with capacity 10 and factor 2 |
| `Lists.Resize` | ct_list.c:23-29 | growth keeps every element at its index; the capacity stays exactly when the elements fit strictly below it, and is otherwise multiplied by the factor exactly once |
| `Lists.ResizeMakesRoomForOne` | ct_list.c:23-29 | with factor at least 2 and a nonzero capacity, one growth step after adding a single element restores `length <= capacity` |
| `Lists.ResizeStalls` | ct_list.c:23-29 | with capacity 0 or factor at most 1 the buffer never gets larger |
| `Lists.ResizeFitsOnlyWithinOneStep` | ct_list.c:24-26 | a full list is valid after growth if and only if its length is at most capacity times factor |
| `Lists.Len` | ct_list.c:261-263 | the length is the number of live elements |
| `Lists.Size` | ct_list.c:236-238 | the byte count is below 2^32 and equals length times element width whenever that product does not wrap |
| `ListEdit.Append` | ct_list.c:49-56 | the length grows by one, earlier elements keep their indices, the last element is the value when one is given; the capacity is multiplied by the factor exactly when the new length reaches it, and stays otherwise |
| `ListEdit.AppendKeepsValid` | ct_list.c:49-56 | appending to a valid list with factor at least 2 and a nonzero capacity keeps it valid |
| `ListEdit.OneAdditionLeavesRoom` | ct_list.c:49-74 | with factor at least 2 and capacity at least 2, a single append or insert on a valid list leaves the length strictly below the capacity |
| `ListEdit.AppendToFullListGrows` | ct_list.c:23-29 | an append that fills the buffer multiplies the capacity by the factor, and every earlier element reads back unchanged after the reallocation |
| `ListEdit.AppendGrowsSizeByOneElement` | ct_list.c:49-56 | one append raises `len` by one and `size` by one element width, as long as the byte count does not wrap |
| `ListEdit.Insert` | ct_list.c:58-74 | the result is the old prefix before `min(pos, len)`, then the new slot, then the old suffix unchanged; the slot holds the value when given, and with no value at `pos < len` it holds a copy of the element that was at `pos`; the capacity grows by the factor exactly when the new length reaches it |
| `ListEdit.InsertPastEndIsAppend` | ct_list.c:59-62 | inserting at or past the end is exactly an append |
| `ListEdit.InsertMoveEndAsWritten` | ct_list.c:64-68 | the move of insert as written copies `size - pos` slots after `size` was raised, so it ends one slot past the new last element |
| `ListEdit.InsertMoveEnd` | ct_list.c:64-68 | corrected move: it ends at the new last element, and so inside the buffer of every valid result |
| `ListEdit.InsertMoveAsWrittenFitsExactly` | ct_list.c:64-68 | the move as written stays inside the grown buffer if and only if the new length is strictly below the capacity |
| `ListEdit.InsertMoveStaysInBuffer` | ct_list.c:64-68 | for a valid list, `pos < len`, factor at least 2 and capacity at least 2, the move as written ends inside the grown buffer |
| `ListEdit.InsertMoveAsWrittenOverruns` | ct_list.c:64-68 | with factor 1 and capacity 2, or capacity 1 and factor 2, inserting before the one element of `[7]` gives a valid `[8, 7]` while the move writes one slot past the buffer |
| `ListEdit.InsertThenRemoveRestores` | ct_list.c:58-109 | removing the inserted slot gives back the original elements |
| `ListEdit.RemoveThenInsertRestores` | ct_list.c:58-109 | re-inserting a removed element at its position gives back the original elements |
| `ListEdit.Get` | ct_list.c:76-80 | the list reads as the elements before `pos`, then the value returned, then the rest |
| `ListEdit.Replace` | ct_list.c:82-86 | the element at `pos` becomes the value and every other element, the length and the capacity stay |
| `ListEdit.ReplaceLaws` | ct_list.c:76-86 | writing back the element read by `get` changes nothing; of two writes to one slot only the later is visible |
| `ListEdit.RemovePosEx` | ct_list.c:88-105 | the length drops by one, the elements before `pos` stay, the tail after `pos` moves one slot left, the capacity stays, and the destructor sees exactly the removed element unless the keep flag is set |
| `ListEdit.RemovePos` | ct_list.c:107-109 | the survivors are the old elements without the one at `pos`, in order, and as a multiset they are the old elements minus exactly that one |
| `ListEdit.RemovePosKeepsValid` | ct_list.c:88-105 | removal preserves `length <= capacity` |
| `ListEdit.RemoveFirst` | ct_list.c:111 | removing the first element of a non-empty list leaves the old elements from index 1 on, with capacity, factor and width kept |
| `ListEdit.LastIndex` | ct_list.c:113-115 | the 32-bit index `size - 1` is the last live index of a non-empty list and wraps to 2^32 - 1 on an empty one, past every live index |
| `ListEdit.RemoveLast` | ct_list.c:113-115 | removing the last element of a non-empty list leaves all the others in order, with capacity, factor and width kept |
| `ListEdit.AppendThenRemoveLast` | ct_list.c:49-115 | an appended value reads back at the old length, and removing the last element then gives back the original elements |
| `ListEdit.AllocPosAsWritten` | ct_list.c:295-298 | alloc_pos as written: an insert without a value at `pos`, returning the view at index `pos` whatever `pos` is |
| `ListEdit.AllocPosAsWrittenMissesSlot` | ct_list.c:295-298 | for `pos` past the end, the returned view is not the reserved slot and lies outside the live elements |
| `ListEdit.AllocPosAsWrittenExample` | ct_list.c:295-298 | on an empty list, alloc_pos(5) gives a one-element list and a view at index 5 |
| `ListEdit.AllocPos` | ct_list.c:295-298 | corrected alloc_pos: the returned view is exactly `min(pos, len)`, a live index, and the list is the old one with one new slot at exactly that index; capacity, factor and width change as for an insert without a value |
| `ListEdit.AllocPosAgreesInRange` | ct_list.c:295-298 | for `pos <= len` the corrected and the original alloc_pos agree |
| `ListRemoveVal.RemoveFirstNCount` | ct_list.c:117-134 | the reference removal takes out exactly `min(n, matches)` copies of the value |
| `ListRemoveVal.RemoveFirstNKeepsOthers` | ct_list.c:117-134 | the reference removal keeps every element different from the value, in its old order |
| `ListRemoveVal.RemoveNothing` | ct_list.c:123 | with a count of zero, or with no match, nothing is removed |
| `ListRemoveVal.Schedule` | ct_list.c:120-129 | the scan records `min(limit, matches)` positions |
| `ListRemoveVal.RemoveAll` | ct_list.c:131-133 | the removal loop leaves the elements of removing each recorded position in turn and keeps capacity, factor and width |
| `ListRemoveVal.ScheduleRemovesFirstMatches` | ct_list.c:120-133 | each recorded position `i - delete_count` is a live index when its turn comes, and removing them in order takes out exactly the first matches and nothing else |
| `ListRemoveVal.RemoveValAsWritten` | ct_list.c:117-134 | both loops of remove_val, with the scratch table taken as unbounded, remove exactly the first `min(count, matches)` elements equal to the value and keep the survivors in order |
| `ListRemoveVal.CountOfConstant` | ct_list.c:123-128 | a run of `n` equal elements holds `n` matches, the input used to overflow the scratch table |
| `ListRemoveVal.ScratchTableOverflows` | ct_list.c:6 | with 1025 equal elements and a count of 1025 the scan records more than 1024 positions |
| `ListRemoveVal.RecordPositions` | ct_list.c:120-129 | the scan loop, bounded by the table size, records the positions of the capped schedule and never more than 1024 |
| `ListRemoveVal.RemoveVal` | ct_list.c:117-134 | corrected remove_val: the first `min(count, 1024)` matches at most are removed, the length drops by exactly `min(count, 1024, matches)`, survivors keep their order |
| `ListRemoveVal.RemoveValLoops` | ct_list.c:117-134 | the corrected remove_val as two loops, the bounded scan and then one remove_pos per recorded position, leaves exactly the first `min(count, 1024)` matches removed, the same list as `RemoveVal` |
| `ListRemoveVal.RemoveValAgreesWithinTable` | ct_list.c:117-134 | the corrected and the original remove_val agree whenever `min(count, matches)` is at most 1024, so they differ only on the calls that overrun the scratch table |
| `ListRemoveVal.RemoveFirstNSaturates` | ct_list.c:123 | once the count reaches the number of matches, a larger count removes nothing more |
| `ListRemoveVal.RemoveValExample` | ct_list.c:117-134 | removing value 5 with count 2 from [5, 2, 5, 5, 3] leaves [2, 5, 3] |
| `ListStructure.Find` | ct_list.c:136-149 | the result is -1 exactly when no element equals the value, and otherwise the least index whose element equals it |
| `ListStructure.SameFrom` | ct_list.c:169-173 | the element loop of compare succeeds exactly when the two lists agree at every index from `i` on |
| `ListStructure.Compare` | ct_list.c:163-176 | the code is 1 exactly when the widths differ, 2 exactly when only the lengths differ, 3 exactly when some element differs, and 0 exactly when width and elements are equal |
| `ListStructure.CompareReflexiveSymmetric` | ct_list.c:163-176 | every list compares equal to itself, and swapping the arguments gives the same code |
| `ListStructure.Swap` | ct_list.c:151-161 | the elements at `i` and `j` trade places, every other element stays, and the multiset of elements is unchanged |
| `ListStructure.SwapInvolution` | ct_list.c:151-161 | swapping a pair twice restores the list, and the order of the pair does not matter |
| `ListStructure.Reversed` | ct_list.c:212-217 | reference reversal: index `k` of the result is index `len - 1 - k` of the input |
| `ListStructure.ReversedInvolution` | ct_list.c:212-217 | reversing twice gives the sequence back |
| `ListStructure.Reverse` | ct_list.c:212-217 | the swap loop up to `size / 2` leaves exactly the reversed elements and changes nothing else |
| `ListStructure.GrowToFit` | ct_list.c:23-29 | repeated growth keeps a capacity that already fits, ends strictly above the requested length when factor is at least 2 and capacity is nonzero, and overshoots by at most one factor |
| `ListStructure.CatAsWritten` | ct_list.c:178-189 | cat as written: the elements of `dest` followed by those of `src`, after a single growth step; the capacity stays exactly when the new length is below it, and is otherwise multiplied by the factor once |
| `ListStructure.CatAsWrittenOverflows` | ct_list.c:178-189 | appending a 25-element list to a fresh list of capacity 10 leaves 25 elements in 20 slots |
| `ListStructure.Cat` | ct_list.c:178-189 | corrected cat: the elements of `dest` followed by those of `src`, with the capacity grown by `GrowToFit`, and the result is valid whenever the buffer can grow |
| `ListStructure.CatAgreesWithinOneStep` | ct_list.c:178-189 | when one growth step suffices the corrected and the original cat agree |
| `ListStructure.CatReadsBothParts` | ct_list.c:178-189 | reading the concatenation at `k` gives `dest[k]` below the old length and `src[k - len]` after it |
| `ListStructure.CopyAsWritten` | ct_list.c:219-226 | copy as written: `dest` takes the elements of `src` after a single growth step; the capacity stays exactly when the length of `src` is below it, and is otherwise multiplied by the factor once |
| `ListStructure.CopyAsWrittenOverflows` | ct_list.c:219-226 | copying 25 elements into a fresh list of capacity 10 leaves 25 elements in 20 slots |
| `ListStructure.Copy` | ct_list.c:219-226 | corrected copy: `dest` holds exactly the elements of `src`, with the capacity grown by `GrowToFit`, and is valid whenever the buffer can grow |
| `ListStructure.CopyThenCompareIsZero` | ct_list.c:163-226 | after a copy, compare of destination and source returns 0 |
| `ListStructure.CopyAgreesWithinOneStep` | ct_list.c:219-226 | when one growth step suffices the corrected and the original copy agree |
| `ListStructure.ClearEx` | ct_list.c:191-205 | the list becomes empty and valid with capacity, factor and width kept; the destructor sees every element in order unless the keep flag is set |
| `ListStructure.Clear` | ct_list.c:207-209 | after clear the length and the byte count are 0, and the capacity, factor and width are unchanged |
| `ListScan.All` | ct_list.c:240-248 | the result is true exactly when the predicate holds of every element |
| `ListScan.Any` | ct_list.c:250-259 | the result is true exactly when the predicate holds of some element |
| `ListScan.Extremum` | ct_list.c:265-293 | the fold returns no index exactly when no element beats the seed; otherwise an index in range that no later element beats |
| `ListScan.ExtremumIsEarliestBest` | ct_list.c:265-293 | under a strict weak order (ties allowed) with a seed every element beats, the result is the earliest best element: nothing beats it and it beats everything before it, so every element tied with it comes later |
| `ListScan.LastTakesOver` | ct_list.c:269-275 | when the last element beats the best of the others, the fold ends on it, nothing beats it and it beats every earlier element |
| `ListScan.BestOfRestStays` | ct_list.c:269-275 | when the last element does not beat the best of the others, the fold keeps the earlier index |
| `ListScan.Fold` | ct_list.c:269-275 | the loop returns the seed when no element replaced it, and otherwise the element the fold chose |
| `ListScan.Max` | ct_list.c:265-278 | max returns the sentinel when nothing is greater than it, else the element the strict fold chose |
| `ListScan.Min` | ct_list.c:280-293 | min returns the sentinel when nothing is less than it, else the element the strict fold chose |
| `ListScan.MaxExample` | ct_list.c:265-278 | on [3, 1, 4, 1, 5, 9, 2, 6] with sentinel 0 the maximum is the 9 at index 5 |
| `ListScan.MinExample` | ct_list.c:280-293 | on the same list with sentinel 100 the minimum is the first 1, at index 1, not the equal one at index 3 |
| `ListScan.MaxTieExample` | ct_list.c:265-278 | with pairs compared by their first component, of the tied (1, 0) and (1, 1) max keeps the earlier one, and that key order is a strict weak order |

## Left out

- `ct_list_destroy`, `ct_list_destroy_ex` and `free_func` only release memory. The model has no heap. Destructor calls appear only as the `destroyed` log of `RemovePosEx` and `ClearEx`.
- The destructor receives an element value in `ct_list_destroy_ex` (ct_list.c:41) but an element address in `remove_pos_ex` and `clear_ex` (ct_list.c:101, 196). This difference cannot be seen once the buffer is a sequence of values.
- `ct_list_map` is not modelled. It exists only for the side effects of its callback. The callbacks of `all`, `any`, `max` and `min` are pure Dafny functions.
- The instrumented allocator (ct_mem_debug.c) and ctools.h are not part of this model. The first is allocator bookkeeping; the second has no list logic.
- Allocation failure and the address changes made by `realloc` are not modelled. Storage is a sequence, and reallocation keeps every element at its index.
- `ListEdit.Get`: `ct_list_get` returns a pointer into the buffer. The model returns the value, so aliasing through that pointer and its invalidation by later calls are not modelled.
- `ListEdit.Get`, `ListEdit.Replace`, `ListEdit.RemovePosEx`, `ListEdit.RemovePos` and `ListStructure.Swap` require positions inside the list. The C functions do not check them. For `len <= pos < capacity`, `get`, `replace` and `swap` read or write inside the buffer, in slots past the live elements that the model does not hold; their bytes are what the `stale` parameter of `Append` and `Insert` stands for. For `pos >= capacity` they reach outside the buffer, which is undefined behaviour. For `pos >= len`, `remove_pos_ex` computes its move count `(size - pos) * type_size` in 32 bits, so it wraps to a huge count (2^32 - type_size at `pos == len`) and the `memmove` is undefined behaviour.
- `ListEdit.RemoveFirst` requires a non-empty list. On an empty one C wraps `size` to 2^32 - 1 (ct_list.c:91) and asks `memmove` to move `(2^32 - 1) * type_size` bytes, which the 32-bit `uint` product wraps to 2^32 - type_size bytes (ct_list.c:104). That is far past the buffer, which is undefined behaviour.
- `ListEdit.RemoveLast` requires a non-empty list. On an empty one C passes the wrapped index 2^32 - 1 (ct_list.c:114, shown by `ListEdit.LastIndex`). `remove_pos_ex` then wraps `size` to 2^32 - 1 (ct_list.c:91) and moves no bytes (ct_list.c:104), so `len` afterwards reports 4294967295 elements. A list whose length exceeds its buffer cannot be represented here.
- `ListRemoveVal.RemoveValAsWritten` takes the scratch table as unbounded. With more than 1024 matches and a count above 1024, C writes past `delete_positions` (ct_list.c:120, 127), which is undefined behaviour; `ListRemoveVal.ScratchTableOverflows` shows when this happens.
- `ListEdit.AllocPos` and `ListEdit.AllocPosAsWritten` return the view as an index rather than a pointer.
- `ListStructure.CatAsWritten`, `ListStructure.Cat`, `ListStructure.CopyAsWritten` and `ListStructure.Copy` require both lists to have the same element width. C does not check this. `cat` walks `src` with the width of `dest` (ct_list.c:187), and `copy` copies `src`'s bytes into `dest` without changing `dest`'s width (ct_list.c:224).
- `cat` with `dest == src` cannot be written: lists are values, so the two arguments never alias. In C that call re-reads the doubled `src->size` (ct_list.c:180, 186) and writes past the new length.
- `ListEdit.Insert`: the result describes the live elements and the capacity, not the bytes the move writes. With factor at most 1, or capacity 1, an insert at `pos < len` that brings the length to the capacity returns a valid list while the move writes one slot past the buffer (`ListEdit.InsertMoveAsWrittenOverruns`, listed under Findings). `Valid` of the result therefore implies memory safety only for the corrected move `ListEdit.InsertMoveEnd`.
- `ListEdit.Append` and `ListEdit.Insert`: the bytes of a slot reserved without a value are a parameter `stale`. The model has no buffer contents beyond the live elements.
- `ListStructure.Clear` and `ListStructure.ClearEx`: the `memset` of the old bytes (ct_list.c:202) is not modelled, since no live element remains.
- `Lists.InitEx`: the buffer size `type_size * capacity` passed to `malloc` (ct_list.c:14) is a 32-bit product that can wrap. The buffer can then hold fewer than `capacity` slots, and `Valid` overstates memory safety for such lists.
- `Lists.Resize`: the 32-bit product `capacity * resize_factor` and the byte count passed to `realloc` are unbounded integers here, so their wrap-around is not modelled.
- `ListStructure.Find`: the conversion of the `uint` index to the `int` result is not modelled, so lists longer than 2^31 elements are not covered.
- Lengths, loop counters and scratch table entries are unbounded naturals. The 32-bit wrap is modelled in `Lists.Size` and in `ListEdit.LastIndex`. The wrapped lengths of `RemoveFirst` and `RemoveLast` on an empty list are covered only by the lines above.
- `ListScan.Max` and `ListScan.Min` return the chosen element's value. The C functions return a pointer either to that element or to the sentinel.

## Findings

| source | as written | input that shows it | evidently intended | confidence | as-written member | corrected member |
|---|---|---|---|---|---|---|
| ct_list.c:295-298 | alloc_pos inserts with `pos` but returns `get(pos)`; an insert past the end reserves the slot at the old length | alloc_pos(5) on an empty list: slot 0 is reserved, the view points at index 5 of a one-element list | return the slot the insert reserved, `get(min(pos, len))` | not executed | `ListEdit.AllocPosAsWrittenMissesSlot` | `ListEdit.AllocPos` |
| ct_list.c:117-134 | the scan fills `delete_positions[1024]` with no bound check | 1025 equal elements and count 1025: the 1025th position is stored past the table | stop the scan when the table is full, so at most 1024 removals happen per call | not executed | `ListRemoveVal.ScratchTableOverflows` | `ListRemoveVal.RemoveVal` |
| ct_list.c:178-189 | cat raises the size by `src->size` and grows the buffer once | a fresh list of capacity 10 and a source of 25 elements: capacity 20, 25 elements written | grow until the new length is below the capacity, as the `size < capacity` test of ct_list_resize requires | not executed | `ListStructure.CatAsWrittenOverflows` | `ListStructure.Cat` |
| ct_list.c:219-226 | copy sets the size to `src->size` and grows the buffer once | a fresh list of capacity 10 and a source of 25 elements: capacity 20, 25 elements written | grow until the new length is below the capacity, as the `size < capacity` test of ct_list_resize requires | not executed | `ListStructure.CopyAsWrittenOverflows` | `ListStructure.Copy` |
| ct_list.c:64-68 | insert raises `size`, then moves `size - pos` slots from `pos` to `pos + 1`, one slot more than the old elements from `pos` on | `init_ex(4, 2, 1)`, append 7, insert 8 at 0: two elements in two slots, and the move writes 8 bytes at offset 4 of an 8-byte buffer | move the `size - 1 - pos` old elements, ending at the new last element | not executed | `ListEdit.InsertMoveAsWrittenOverruns` | `ListEdit.InsertMoveEnd` |

=== FILE: list_edit.dfy ===
/** Positional operations of the dynamic array: append, insert, alloc_pos,
    get, replace and the removal family built on remove_pos. */
module ListEdit {
  import opened Lists

  /** ct_list_append: the length grows by one, the buffer grows if it is full,
      and the value is copied into the new last slot. A NULL value leaves the
      slot as it was; `stale` stands for whatever bytes it happens to hold. */
  function Append<T>(l: List<T>, value: Option<T>, stale: T): (r: List<T>)
    ensures |r.elems| == |l.elems| + 1
    ensures r.elems[..|l.elems|] == l.elems
    ensures value.Some? ==> r.elems[|l.elems|] == value.value
    ensures r.factor == l.factor && r.typeSize == l.typeSize
    ensures |l.elems| + 1 < l.capacity ==> r.capacity == l.capacity
    ensures |l.elems| + 1 >= l.capacity ==> r.capacity == l.capacity * l.factor
  {
    Resize(l.(elems := l.elems + [value.GetOr(stale)]))
  }

  /** Appending to a valid list keeps it valid when growth can make room. */
  lemma AppendKeepsValid<T>(l: List<T>, value: Option<T>, stale: T)
    requires Valid(l)
    requires l.factor >= 2 && l.capacity > 0
    ensures Valid(Append(l, value, stale))
  {
    ResizeMakesRoomForOne(l.(elems := l.elems + [value.GetOr(stale)]));
  }

  /** Once the capacity is at least two, one append or insert on a valid
      list with factor at least two leaves a free slot: the new length is
      strictly below the capacity. */
  lemma OneAdditionLeavesRoom<T>(l: List<T>, value: Option<T>, stale: T, pos: nat)
    requires Valid(l) && l.factor >= 2 && l.capacity >= 2
    ensures |Append(l, value, stale).elems| < Append(l, value, stale).capacity
    ensures |Insert(l, value, stale, pos).elems| < Insert(l, value, stale, pos).capacity
  {
  }

  /** An append that fills the buffer triggers exactly one growth step; the
      elements already stored keep their indices across the reallocation. */
  lemma AppendToFullListGrows<T>(l: List<T>, value: Option<T>, stale: T)
    requires |l.elems| + 1 >= l.capacity
    ensures Append(l, value, stale).capacity == l.capacity * l.factor
    ensures forall i :: 0 <= i < |l.elems| ==> Get(Append(l, value, stale), i) == Get(l, i)
  {
  }

  /** Appending one element raises the live byte count by one element width
      (as long as 32-bit arithmetic does not wrap). */
  lemma AppendGrowsSizeByOneElement<T>(l: List<T>, value: Option<T>, stale: T)
    requires (|l.elems| + 1) * l.typeSize < UintLimit
    ensures Len(Append(l, value, stale)) == Len(l) + 1
    ensures Size(Append(l, value, stale)) == Size(l) + l.typeSize
  {
  }

  /** ct_list_insert. A position at or past the end appends. Otherwise the
      length grows, the buffer grows if full, the tail from `pos` moves one slot
      right and the value is copied into slot `pos`. With a NULL value slot
      `pos` keeps the bytes that were there, which after the move are a copy of
      the element now at `pos + 1`. */
  function Insert<T>(l: List<T>, value: Option<T>, stale: T, pos: nat): (r: List<T>)
    ensures |r.elems| == |l.elems| + 1
    ensures var p := MinNat(pos, |l.elems|);
            && r.elems[..p] == l.elems[..p]
            && r.elems[p + 1..] == l.elems[p..]
            && (value.Some? ==> r.elems[p] == value.value)
    ensures pos < |l.elems| && value.None? ==> r.elems[pos] == l.elems[pos]
    ensures r.factor == l.factor && r.typeSize == l.typeSize
    ensures |l.elems| + 1 < l.capacity ==> r.capacity == l.capacity
    ensures |l.elems| + 1 >= l.capacity ==> r.capacity == l.capacity * l.factor
  {
    if pos >= |l.elems| then Append(l, value, stale)
    else
      var shifted := l.elems[..pos] + [value.GetOr(l.elems[pos])] + l.elems[pos..];
      assert shifted[pos + 1..] == l.elems[pos..];
      Resize(l.(elems := shifted))
  }

  /** Inserting at or past the end is the same call as appending. */
  lemma InsertPastEndIsAppend<T>(l: List<T>, value: Option<T>, stale: T, pos: nat)
    requires pos >= |l.elems|
    ensures Insert(l, value, stale, pos) == Append(l, value, stale)
  {
  }

  /** One past the last slot the move of ct_list_insert writes, as written:
      the move starts at slot `pos + 1` and copies `size - pos` slots after
      `size` has already been raised, so it also copies the slot just past the
      old elements and ends one slot past the new last element. */
  function InsertMoveEndAsWritten<T>(l: List<T>, pos: nat): (end: nat)
    requires pos < |l.elems|
    ensures end == |Insert(l, None, l.elems[pos], pos).elems| + 1
  {
    (pos + 1) + (|l.elems| + 1 - pos)
  }

  /** One past the last slot the move writes as evidently intended: it copies
      only the `size - 1 - pos` old elements from `pos` on, so it ends at the
      new last element and stays inside every valid result. */
  function InsertMoveEnd<T>(l: List<T>, pos: nat): (end: nat)
    requires pos < |l.elems|
    ensures end == |Insert(l, None, l.elems[pos], pos).elems|
    ensures Valid(Insert(l, None, l.elems[pos], pos)) ==> end <= Insert(l, None, l.elems[pos], pos).capacity
  {
    (pos + 1) + (|l.elems| - pos)
  }

  /** The move as written stays inside the grown buffer exactly when the new
      length stays strictly below the capacity. */
  lemma InsertMoveAsWrittenFitsExactly<T>(l: List<T>, value: Option<T>, stale: T, pos: nat)
    requires pos < |l.elems|
    ensures var r := Insert(l, value, stale, pos);
            InsertMoveEndAsWritten(l, pos) <= r.capacity <==> |r.elems| < r.capacity
  {
  }

  /** With factor at least 2 and capacity at least 2, the move as written
      still ends inside the grown buffer. */
  lemma InsertMoveStaysInBuffer<T>(l: List<T>, value: Option<T>, stale: T, pos: nat)
    requires Valid(l) && pos < |l.elems|
    requires l.factor >= 2 && l.capacity >= 2
    ensures InsertMoveEndAsWritten(l, pos) <= Insert(l, value, stale, pos).capacity
  {
  }

  /** Two inserts at position 0 whose result is valid while the move as
      written overruns the buffer by one slot: factor 1 keeps a capacity of 2
      for two elements, and capacity 1 with the default factor 2 grows to
      exactly two slots. */
  lemma InsertMoveAsWrittenOverruns()
    ensures var l := List([7], 2, 1, 4);
            var r := Insert(l, Some(8), 0, 0);
            Valid(l) && Valid(r) && r.elems == [8, 7] && InsertMoveEndAsWritten(l, 0) == r.capacity + 1
    ensures var l := List([7], 1, 2, 4);
            var r := Insert(l, Some(8), 0, 0);
            Valid(l) && Valid(r) && r.elems == [8, 7] && InsertMoveEndAsWritten(l, 0) == r.capacity + 1
  {
  }

  /** Removing the inserted slot undoes the insertion. */
  lemma InsertThenRemoveRestores<T>(l: List<T>, value: T, stale: T, pos: nat)
    ensures var p := MinNat(pos, |l.elems|);
            RemovePos(Insert(l, Some(value), stale, pos), p).elems == l.elems
  {
  }

  /** Putting a removed element back at its position undoes the removal. */
  lemma RemoveThenInsertRestores<T>(l: List<T>, pos: nat, stale: T)
    requires pos < |l.elems|
    ensures Insert(RemovePos(l, pos), Some(l.elems[pos]), stale, pos).elems == l.elems
  {
  }

  /** ct_list_get, read as a value: the element at `pos`. The list splits
      into the elements before `pos`, the value read, and the rest. */
  function Get<T>(l: List<T>, pos: nat): (v: T)
    requires pos < |l.elems|
    ensures l.elems == l.elems[..pos] + [v] + l.elems[pos + 1..]
  {
    l.elems[pos]
  }

  /** ct_list_replace: the element at `pos` is overwritten, nothing else changes. */
  function Replace<T>(l: List<T>, pos: nat, value: T): (r: List<T>)
    requires pos < |l.elems|
    ensures |r.elems| == |l.elems| && Get(r, pos) == value
    ensures forall k :: 0 <= k < |l.elems| && k != pos ==> r.elems[k] == l.elems[k]
    ensures r.capacity == l.capacity && r.factor == l.factor && r.typeSize == l.typeSize
  {
    l.(elems := l.elems[pos := value])
  }

  /** Writing back the element already stored changes nothing, and of two
      writes to the same slot only the later one is visible. */
  lemma ReplaceLaws<T>(l: List<T>, pos: nat, a: T, b: T)
    requires pos < |l.elems|
    ensures Replace(l, pos, Get(l, pos)) == l
    ensures Replace(Replace(l, pos, a), pos, b) == Replace(l, pos, b)
  {
  }

  /** `s` without its element at `pos`: the elements ct_list_remove_pos leaves. */
  function Delete<T>(s: seq<T>, pos: nat): seq<T>
    requires pos < |s|
  {
    s[..pos] + s[pos + 1..]
  }

  /** Outcome of a removal: the list afterwards, and the elements handed to the
      destructor, in order (empty when the keep flag is set). */
  datatype Removal<T> = Removal(list: List<T>, destroyed: seq<T>)

  /** ct_list_remove_pos_ex: the length drops by one, the destructor runs on
      the element at `pos` unless the keep flag is set, and the tail after
      `pos` moves one slot left. The capacity never shrinks. */
  function RemovePosEx<T>(l: List<T>, pos: nat, keep: bool): (r: Removal<T>)
    requires pos < |l.elems|
    ensures |r.list.elems| == |l.elems| - 1
    ensures r.list.elems[..pos] == l.elems[..pos]
    ensures r.list.elems[pos..] == l.elems[pos + 1..]
    ensures r.list.capacity == l.capacity && r.list.factor == l.factor
    ensures r.list.typeSize == l.typeSize
    ensures keep ==> r.destroyed == []
    ensures !keep ==> r.destroyed == [l.elems[pos]]
  {
    var rest := Delete(l.elems, pos);
    assert rest[pos..] == l.elems[pos + 1..];
    Removal(l.(elems := rest), if keep then [] else [l.elems[pos]])
  }

  /** ct_list_remove_pos: removal with the keep flag set. The survivors are
      the old elements minus the one at `pos`, in their old order. */
  function RemovePos<T>(l: List<T>, pos: nat): (r: List<T>)
    requires pos < |l.elems|
    ensures r.elems == l.elems[..pos] + l.elems[pos + 1..]
    ensures multiset(r.elems) + multiset{l.elems[pos]} == multiset(l.elems)
    ensures r.capacity == l.capacity && r.factor == l.factor && r.typeSize == l.typeSize
  {
    var r := RemovePosEx(l, pos, true).list;
    assert r.elems == r.elems[..pos] + r.elems[pos..];
    assert l.elems == l.elems[..pos] + [l.elems[pos]] + l.elems[pos + 1..];
    r
  }

  /** Removal never breaks validity: the length drops, the capacity stays. */
  lemma RemovePosKeepsValid<T>(l: List<T>, pos: nat)
    requires Valid(l) && pos < |l.elems|
    ensures Valid(RemovePos(l, pos))
  {
  }

  /** ct_list_remove_first. */
  function RemoveFirst<T>(l: List<T>): (r: List<T>)
    requires |l.elems| > 0
    ensures r.elems == l.elems[1..]
    ensures r.capacity == l.capacity && r.factor == l.factor && r.typeSize == l.typeSize
  {
    RemovePos(l, 0)
  }

  /** The index ct_list_remove_last passes on: `size - 1` in 32-bit unsigned
      arithmetic. On an empty list it wraps to the largest `uint`, an index no
      list of that length holds. */
  function LastIndex(size: nat): (i: nat)
    requires size < UintLimit
    ensures i < UintLimit
    ensures size > 0 ==> i + 1 == size
    ensures size == 0 ==> i == UintLimit - 1 && i >= size
  {
    (size + UintLimit - 1) % UintLimit
  }

  /** ct_list_remove_last: removal at the wrapped index `size - 1`, which is
      a live index exactly when the list is not empty. */
  function RemoveLast<T>(l: List<T>): (r: List<T>)
    requires 0 < |l.elems| < UintLimit
    ensures r.elems == l.elems[..|l.elems| - 1]
    ensures r.capacity == l.capacity && r.factor == l.factor && r.typeSize == l.typeSize
  {
    RemovePos(l, LastIndex(|l.elems|))
  }

  /** Appending a value and then removing the last element gives back the
      original elements; the appended value is read back at the old length. */
  lemma AppendThenRemoveLast<T>(l: List<T>, value: T, stale: T)
    requires |l.elems| + 1 < UintLimit
    ensures Get(Append(l, Some(value), stale), |l.elems|) == value
    ensures RemoveLast(Append(l, Some(value), stale)).elems == l.elems
  {
  }

  /** ct_list_alloc_pos as written: a NULL insert at `pos`, and the view
      returned is `get(pos)` whatever `pos` was. The result pairs the list with
      the index of the returned view. */
  function AllocPosAsWritten<T>(l: List<T>, pos: nat, stale: T): (r: (List<T>, nat))
    ensures r.0 == Insert(l, None, stale, pos)
    ensures r.1 == pos
  {
    (Insert(l, None, stale, pos), pos)
  }

  /** For `pos` past the end, the reserved slot is at the old length but the
      returned view points further on, outside the live elements. */
  lemma AllocPosAsWrittenMissesSlot<T>(l: List<T>, pos: nat, stale: T)
    requires pos > |l.elems|
    ensures var (r, view) := AllocPosAsWritten(l, pos, stale);
            view != |l.elems| && view >= |r.elems|
  {
  }

  /** A concrete case: on an empty list, alloc_pos(5) reserves slot 0 and
      returns a view at index 5 of a one-element list. */
  lemma AllocPosAsWrittenExample()
    ensures var (r, view) := AllocPosAsWritten(Init<int>(4), 5, 0);
            |r.elems| == 1 && view == 5
  {
  }

  /** ct_list_alloc_pos as evidently intended: the view returned is the slot
      the insert reserved, at `pos` or at the old length when `pos` is past
      the end. */
  function AllocPos<T>(l: List<T>, pos: nat, stale: T): (r: (List<T>, nat))
    ensures var (nl, view) := r;
            && view < |nl.elems|
            && |nl.elems| == |l.elems| + 1
            && nl.elems[..view] == l.elems[..view]
            && nl.elems[view + 1..] == l.elems[view..]
    ensures r.1 == MinNat(pos, |l.elems|)
    ensures r.0.capacity == Insert(l, None, stale, pos).capacity
    ensures r.0.factor == l.factor && r.0.typeSize == l.typeSize
  {
    (Insert(l, None, stale, pos), MinNat(pos, |l.elems|))
  }

  /** The corrected alloc_pos agrees with the original whenever `pos` is at
      most the length. */
  lemma AllocPosAgreesInRange<T>(l: List<T>, pos: nat, stale: T)
    requires pos <= |l.elems|
    ensures AllocPos(l, pos, stale) == AllocPosAsWritten(l, pos, stale)
  {
  }
}

=== FILE: list_remove_val.dfy ===
/** Batched value removal (ct_list_remove_val): one scan records, for each of
    the first `count` matches, its index minus the number of matches recorded
    before it; a second pass removes those positions one after another. */
module ListRemoveVal {
  import opened Lists
  import opened ListEdit

  /** Number of elements of `s` equal to `v`. */
  function CountOf<T(==)>(s: seq<T>, v: T): nat
    decreases |s|
  {
    if |s| == 0 then 0
    else (if s[0] == v then 1 else 0) + CountOf(s[1..], v)
  }

  /** Reference definition: `s` with its first `n` elements equal to `v` taken
      out and every other element kept, in order. */
  function RemoveFirstN<T(==)>(s: seq<T>, v: T, n: nat): (r: seq<T>)
    ensures |r| == |s| - MinNat(n, CountOf(s, v))
    decreases |s|
  {
    if |s| == 0 then []
    else if s[0] == v && n > 0 then RemoveFirstN(s[1..], v, n - 1)
    else [s[0]] + RemoveFirstN(s[1..], v, n)
  }

  /** Exactly `min(n, matches)` copies of `v` go. */
  lemma {:induction false} RemoveFirstNCount<T>(s: seq<T>, v: T, n: nat)
    ensures CountOf(RemoveFirstN(s, v, n), v) == CountOf(s, v) - MinNat(n, CountOf(s, v))
    decreases |s|
  {
    if |s| > 0 {
      RemoveFirstNCount(s[1..], v, if s[0] == v && n > 0 then n - 1 else n);
      if !(s[0] == v && n > 0) {
        var r := [s[0]] + RemoveFirstN(s[1..], v, n);
        assert r[1..] == RemoveFirstN(s[1..], v, n);
      }
    }
  }

  /** `s` with every element equal to `v` left out. */
  function Others<T(==)>(s: seq<T>, v: T): seq<T>
    decreases |s|
  {
    if |s| == 0 then []
    else if s[0] == v then Others(s[1..], v)
    else [s[0]] + Others(s[1..], v)
  }

  /** Nothing but copies of `v` goes: the elements different from `v` are
      all still there, in their old order. */
  lemma {:induction false} RemoveFirstNKeepsOthers<T>(s: seq<T>, v: T, n: nat)
    ensures Others(RemoveFirstN(s, v, n), v) == Others(s, v)
    decreases |s|
  {
    if |s| > 0 {
      if s[0] == v && n > 0 {
        RemoveFirstNKeepsOthers(s[1..], v, n - 1);
      } else {
        RemoveFirstNKeepsOthers(s[1..], v, n);
        var r := [s[0]] + RemoveFirstN(s[1..], v, n);
        assert r[0] == s[0] && r[1..] == RemoveFirstN(s[1..], v, n);
      }
    }
  }

  /** Asking for no removals, or running out of matches, changes nothing. */
  lemma RemoveNothing<T>(s: seq<T>, v: T, n: nat)
    requires n == 0 || CountOf(s, v) == 0
    ensures RemoveFirstN(s, v, n) == s
  {
  }

  /** The positions the scan of ct_list_remove_val records, continuing from
      index `i` with `d` matches already recorded and a limit of `n` matches:
      each further match at index `i` is stored as `i - d`. */
  function Schedule<T(==)>(s: seq<T>, v: T, n: nat, i: nat, d: nat): (ps: seq<nat>)
    requires d <= i <= |s| && d <= n
    ensures |ps| == MinNat(n - d, CountOf(s[i..], v))
    decreases |s| - i
  {
    assert s[i..] == [] || s[i..][1..] == s[i + 1..];
    if i == |s| || d == n then []
    else if s[i] == v then [i - d] + Schedule(s, v, n, i + 1, d + 1)
    else Schedule(s, v, n, i + 1, d)
  }

  /** Every position of `ps` is a live index at the moment it is removed,
      when the positions are removed one after another from `s`. */
  predicate InRange<T>(s: seq<T>, ps: seq<nat>)
    decreases |ps|
  {
    |ps| == 0 || (ps[0] < |s| && InRange(Delete(s, ps[0]), ps[1..]))
  }

  /** The elements left after removing the positions of `ps` one after another. */
  function DeleteEach<T>(s: seq<T>, ps: seq<nat>): seq<T>
    requires InRange(s, ps)
    decreases |ps|
  {
    if |ps| == 0 then s else DeleteEach(Delete(s, ps[0]), ps[1..])
  }

  /** The second loop of ct_list_remove_val: ct_list_remove_pos at each
      recorded position in turn. Only the elements change. */
  function RemoveAll<T>(l: List<T>, ps: seq<nat>): (r: List<T>)
    requires InRange(l.elems, ps)
    ensures r.elems == DeleteEach(l.elems, ps)
    ensures r.capacity == l.capacity && r.factor == l.factor && r.typeSize == l.typeSize
    decreases |ps|
  {
    if |ps| == 0 then l
    else
      var l' := RemovePos(l, ps[0]);
      assert l'.elems == Delete(l.elems, ps[0]);
      RemoveAll(l', ps[1..])
  }

  /** The index arithmetic of the scan is right. When the list already lost
      the `d` matches before index `i`, so that it reads `pre + s[i..]` with
      `|pre| == i - d`, removing the recorded positions in ascending order
      always hits a live index and takes out exactly the next matches of the
      suffix. */
  lemma {:induction false} ScheduleRemovesFirstMatches<T>(
    pre: seq<T>, s: seq<T>, v: T, n: nat, i: nat, d: nat)
    requires d <= i <= |s| && d <= n && |pre| == i - d
    ensures InRange(pre + s[i..], Schedule(s, v, n, i, d))
    ensures DeleteEach(pre + s[i..], Schedule(s, v, n, i, d)) == pre + RemoveFirstN(s[i..], v, n - d)
    decreases |s| - i, 1
  {
    if i == |s| {
      assert s[i..] == [];
    } else if d == n {
      RemoveNothing(s[i..], v, 0);
    } else if s[i] == v {
      MatchIsRemoved(pre, s, v, n, i, d);
    } else {
      OtherIsKept(pre, s, v, n, i, d);
    }
  }

  /** A match at index `i` is recorded as `i - d`, which is where it sits. */
  lemma {:induction false} MatchIsRemoved<T>(
    pre: seq<T>, s: seq<T>, v: T, n: nat, i: nat, d: nat)
    requires d <= i < |s| && d < n && |pre| == i - d && s[i] == v
    ensures InRange(pre + s[i..], Schedule(s, v, n, i, d))
    ensures DeleteEach(pre + s[i..], Schedule(s, v, n, i, d)) == pre + RemoveFirstN(s[i..], v, n - d)
    decreases |s| - i, 0
  {
    assert s[i..] == [s[i]] + s[i + 1..];
    assert Delete(pre + s[i..], i - d) == pre + s[i + 1..];
    ScheduleRemovesFirstMatches(pre, s, v, n, i + 1, d + 1);
    assert Schedule(s, v, n, i, d) == [i - d] + Schedule(s, v, n, i + 1, d + 1);
  }

  /** A non-matching element at index `i` is not recorded and survives. */
  lemma {:induction false} OtherIsKept<T>(
    pre: seq<T>, s: seq<T>, v: T, n: nat, i: nat, d: nat)
    requires d <= i < |s| && d < n && |pre| == i - d && s[i] != v
    ensures InRange(pre + s[i..], Schedule(s, v, n, i, d))
    ensures DeleteEach(pre + s[i..], Schedule(s, v, n, i, d)) == pre + RemoveFirstN(s[i..], v, n - d)
    decreases |s| - i, 0
  {
    assert s[i..] == [s[i]] + s[i + 1..];
    assert (pre + [s[i]]) + s[i + 1..] == pre + s[i..];
    ScheduleRemovesFirstMatches(pre + [s[i]], s, v, n, i + 1, d);
  }

  /** ct_list_remove_val as written: the scan records up to `count` positions
      with no check against the size of the scratch table. */
  function RemoveValAsWritten<T(==)>(l: List<T>, v: T, count: nat): (r: List<T>)
    ensures r.elems == RemoveFirstN(l.elems, v, count)
    ensures r.capacity == l.capacity && r.factor == l.factor && r.typeSize == l.typeSize
  {
    assert [] + l.elems[0..] == l.elems;
    ScheduleRemovesFirstMatches([], l.elems, v, count, 0, 0);
    RemoveAll(l, Schedule(l.elems, v, count, 0, 0))
  }

  /** `k` copies of `v`. */
  function Copies<T>(v: T, k: nat): seq<T> {
    seq(k, _ => v)
  }

  /** A sequence of `n` copies of `v` holds `n` matches of `v`. */
  lemma {:induction false} CountOfConstant<T>(n: nat, v: T)
    ensures CountOf(Copies(v, n), v) == n
  {
    if n > 0 {
      assert Copies(v, n)[1..] == Copies(v, n - 1);
      CountOfConstant(n - 1, v);
    }
  }

  /** With more than 1024 equal elements and a large enough count, the scan
      records position number 1025, one past the end of the scratch table. */
  lemma ScratchTableOverflows<T>(v: T)
    ensures var s := Copies(v, MaxDeleteBuf + 1);
            |Schedule(s, v, MaxDeleteBuf + 1, 0, 0)| > MaxDeleteBuf
  {
    var s := Copies(v, MaxDeleteBuf + 1);
    CountOfConstant(MaxDeleteBuf + 1, v);
    assert s[0..] == s;
  }

  /** The scan with the bound the scratch table needs: it stops at `count`
      matches or when the table is full, whichever comes first. The positions
      it returns are those of `Schedule` for the capped count. */
  method RecordPositions<T(==)>(s: seq<T>, v: T, count: nat) returns (ps: seq<nat>)
    ensures ps == Schedule(s, v, MinNat(count, MaxDeleteBuf), 0, 0)
    ensures |ps| <= MaxDeleteBuf
  {
    var n := MinNat(count, MaxDeleteBuf);
    ps := [];
    var i := 0;
    var d := 0;
    while i < |s| && d < n
      invariant d <= i <= |s| && d <= n
      invariant |ps| == d
      invariant ps + Schedule(s, v, n, i, d) == Schedule(s, v, n, 0, 0)
      decreases |s| - i
    {
      if s[i] == v {
        ps := ps + [i - d];
        d := d + 1;
      }
      i := i + 1;
    }
  }

  /** ct_list_remove_val as evidently intended: at most 1024 matches are
      removed per call, so the scratch table is never overrun. The first
      `min(count, 1024, matches)` elements equal to `v` are removed, every
      other element keeps its relative order. */
  function RemoveVal<T(==)>(l: List<T>, v: T, count: nat): (r: List<T>)
    ensures r.elems == RemoveFirstN(l.elems, v, MinNat(count, MaxDeleteBuf))
    ensures |l.elems| - |r.elems| == MinNat(MinNat(count, MaxDeleteBuf), CountOf(l.elems, v))
    ensures r.capacity == l.capacity && r.factor == l.factor && r.typeSize == l.typeSize
  {
    RemoveValAsWritten(l, v, MinNat(count, MaxDeleteBuf))
  }

  /** The corrected ct_list_remove_val with its two loops: the bounded scan
      records the positions, then each is removed in turn. It leaves what
      `RemoveVal` describes. */
  method RemoveValLoops<T(==)>(l: List<T>, v: T, count: nat) returns (r: List<T>)
    ensures r == RemoveVal(l, v, count)
    ensures r.elems == RemoveFirstN(l.elems, v, MinNat(count, MaxDeleteBuf))
  {
    var ps := RecordPositions(l.elems, v, count);
    assert [] + l.elems[0..] == l.elems;
    ScheduleRemovesFirstMatches([], l.elems, v, MinNat(count, MaxDeleteBuf), 0, 0);
    r := l;
    var i := 0;
    while i < |ps|
      invariant 0 <= i <= |ps|
      invariant InRange(r.elems, ps[i..])
      invariant RemoveAll(r, ps[i..]) == RemoveAll(l, ps)
    {
      assert ps[i..][1..] == ps[i + 1..];
      r := RemovePos(r, ps[i]);
      i := i + 1;
    }
  }

  /** Any two limits at or above the number of matches remove every match. */
  lemma {:induction false} RemoveFirstNSaturates<T>(s: seq<T>, v: T, n: nat, m: nat)
    requires n >= CountOf(s, v) && m >= CountOf(s, v)
    ensures RemoveFirstN(s, v, n) == RemoveFirstN(s, v, m)
    decreases |s|
  {
    if |s| > 0 {
      if s[0] == v {
        RemoveFirstNSaturates(s[1..], v, n - 1, m - 1);
      } else {
        RemoveFirstNSaturates(s[1..], v, n, m);
      }
    }
  }

  /** The corrected removal differs from the original only on the calls that
      overrun the scratch table: whenever the original records at most 1024
      positions, the two agree. */
  lemma RemoveValAgreesWithinTable<T>(l: List<T>, v: T, count: nat)
    requires MinNat(count, CountOf(l.elems, v)) <= MaxDeleteBuf
    ensures RemoveVal(l, v, count) == RemoveValAsWritten(l, v, count)
  {
    if count > MaxDeleteBuf {
      RemoveFirstNSaturates(l.elems, v, MaxDeleteBuf, count);
    }
  }

  /** Removing value 5 twice from [5, 2, 5, 5, 3] leaves [2, 5, 3]. */
  lemma RemoveValExample()
    ensures RemoveVal(List([5, 2, 5, 5, 3], 10, 2, 4), 5, 2).elems == [2, 5, 3]
  {
  }
}

=== FILE: list_scan.dfy ===
/** Scan operations of the dynamic array: all, any, max and min. The
    caller's callbacks are pure functions on element values. */
module ListScan {
  import opened Lists

  /** ct_list_all: true when the predicate holds of every element; the scan
      stops at the first element it fails on. */
  method All<T>(l: List<T>, pred: T -> bool) returns (r: bool)
    ensures r <==> forall k :: 0 <= k < |l.elems| ==> pred(l.elems[k])
  {
    var i := 0;
    while i < |l.elems|
      invariant 0 <= i <= |l.elems|
      invariant forall k :: 0 <= k < i ==> pred(l.elems[k])
    {
      if !pred(l.elems[i]) {
        return false;
      }
      i := i + 1;
    }
    return true;
  }

  /** ct_list_any: true when the predicate holds of some element; the scan
      stops at the first element it holds of. */
  method Any<T>(l: List<T>, pred: T -> bool) returns (r: bool)
    ensures r <==> exists k :: 0 <= k < |l.elems| && pred(l.elems[k])
  {
    var i := 0;
    while i < |l.elems|
      invariant 0 <= i <= |l.elems|
      invariant forall k :: 0 <= k < i ==> !pred(l.elems[k])
    {
      if pred(l.elems[i]) {
        return true;
      }
      i := i + 1;
    }
    return false;
  }

  /** The running result of the extremum fold of ct_list_max and ct_list_min
      after the elements of `s`: `None` while the seed still holds, `Some(k)`
      once element `k` replaced the running value. An element replaces it only
      when `beats(element, running)` holds, so later ties never win. */
  function Extremum<T>(s: seq<T>, beats: (T, T) -> bool, seed: T): (r: Option<nat>)
    ensures r.Some? ==> r.value < |s|
    ensures r.None? <==> forall k :: 0 <= k < |s| ==> !beats(s[k], seed)
    ensures r.Some? ==> forall k :: r.value < k < |s| ==> !beats(s[k], s[r.value])
    decreases |s|
  {
    if |s| == 0 then None
    else
      var prefix := s[..|s| - 1];
      var previous := Extremum(prefix, beats, seed);
      var running := if previous.Some? then s[previous.value] else seed;
      assert previous.Some? ==> s[previous.value] == prefix[previous.value];
      if beats(s[|s| - 1], running) then Some(|s| - 1) else previous
  }

  /** The laws of a strict weak order for three values: `beats` is
      transitive, and whenever `x` beats `z`, `y` is beaten by `x` or beats
      `z`. */
  predicate WeakLaws<T>(beats: (T, T) -> bool, x: T, y: T, z: T) {
    && (beats(x, y) && beats(y, z) ==> beats(x, z))
    && (beats(x, z) ==> beats(x, y) || beats(y, z))
  }

  /** No value beats itself. */
  predicate Irreflexive<T>(beats: (T, T) -> bool, x: T) {
    !beats(x, x)
  }

  /** `beats` is a strict weak order on the elements of `s`: irreflexive and
      subject to `WeakLaws`. Distinct elements may tie (neither beats the
      other), as they do under a comparison of one key. */
  ghost predicate StrictWeakOn<T>(beats: (T, T) -> bool, s: seq<T>) {
    && (forall i :: 0 <= i < |s| ==> Irreflexive(beats, s[i]))
    && (forall i, j, k :: 0 <= i < |s| && 0 <= j < |s| && 0 <= k < |s| ==> WeakLaws(beats, s[i], s[j], s[k]))
  }

  /** Dropping the last element keeps a strict weak order. */
  lemma StrictWeakOnPrefix<T>(beats: (T, T) -> bool, s: seq<T>)
    requires |s| > 0 && StrictWeakOn(beats, s)
    ensures StrictWeakOn(beats, s[..|s| - 1])
  {
    var prefix := s[..|s| - 1];
    forall i | 0 <= i < |prefix| ensures prefix[i] == s[i] {}
  }

  /** An element that beats `s[p]`, which no earlier element beats, beats
      every earlier element, and none of them or itself beats it. */
  lemma BeatsAllBelow<T>(beats: (T, T) -> bool, s: seq<T>, top: nat, p: nat)
    requires StrictWeakOn(beats, s) && top < |s| && p < |s|
    requires beats(s[top], s[p])
    requires forall k :: 0 <= k < top ==> !beats(s[k], s[p])
    ensures forall k :: 0 <= k < top ==> beats(s[top], s[k])
    ensures forall k :: 0 <= k <= top ==> !beats(s[k], s[top])
  {
    forall k | 0 <= k < top
      ensures beats(s[top], s[k]) && !beats(s[k], s[top])
    {
      assert WeakLaws(beats, s[top], s[k], s[p]);
      assert WeakLaws(beats, s[k], s[top], s[k]);
      assert Irreflexive(beats, s[k]);
    }
    assert Irreflexive(beats, s[top]);
  }

  /** What holds of `p` in `prefix`, all but the last element of `s`, holds
      of it in `s`. */
  lemma PrefixFactsHold<T>(s: seq<T>, prefix: seq<T>, beats: (T, T) -> bool, p: nat)
    requires |s| > 1 && prefix == s[..|s| - 1] && p < |prefix|
    requires forall k :: 0 <= k < |prefix| ==> !beats(prefix[k], prefix[p])
    requires forall k :: 0 <= k < p ==> beats(prefix[p], prefix[k])
    ensures forall k :: 0 <= k < |s| - 1 ==> !beats(s[k], s[p])
    ensures forall k :: 0 <= k < p ==> beats(s[p], s[k])
  {
    assert forall k :: 0 <= k < |prefix| ==> prefix[k] == s[k];
  }

  /** The step where the last element beats the best of the rest: it becomes
      the result, and it is the earliest best element. */
  lemma LastTakesOver<T>(s: seq<T>, beats: (T, T) -> bool, seed: T, p: nat)
    requires |s| > 1 && p < |s| - 1 && StrictWeakOn(beats, s)
    requires Extremum(s[..|s| - 1], beats, seed) == Some(p)
    requires forall k :: 0 <= k < |s| - 1 ==> !beats(s[k], s[p])
    requires beats(s[|s| - 1], s[p])
    ensures Extremum(s, beats, seed) == Some(|s| - 1)
    ensures forall k :: 0 <= k < |s| ==> !beats(s[k], s[|s| - 1])
    ensures forall k :: 0 <= k < |s| - 1 ==> beats(s[|s| - 1], s[k])
  {
    assert s[..|s| - 1][p] == s[p];
    BeatsAllBelow(beats, s, |s| - 1, p);
  }

  /** The step where the last element does not beat the best of the rest:
      the result stays where it was. */
  lemma BestOfRestStays<T>(s: seq<T>, beats: (T, T) -> bool, seed: T, p: nat)
    requires |s| > 1 && p < |s| - 1
    requires Extremum(s[..|s| - 1], beats, seed) == Some(p)
    requires !beats(s[|s| - 1], s[p])
    ensures Extremum(s, beats, seed) == Some(p)
  {
    assert s[..|s| - 1][p] == s[p];
  }

  /** With a strict weak order and a seed every element beats, the fold ends
      on the earliest best element: nothing beats it, and it beats every
      element before it, so every element tied with it comes later. */
  lemma {:induction false} ExtremumIsEarliestBest<T>(s: seq<T>, beats: (T, T) -> bool, seed: T)
    requires |s| > 0 && StrictWeakOn(beats, s)
    requires forall k :: 0 <= k < |s| ==> beats(s[k], seed)
    ensures Extremum(s, beats, seed).Some?
    ensures var m := Extremum(s, beats, seed).value;
            && (forall k :: 0 <= k < |s| ==> !beats(s[k], s[m]))
            && (forall k :: 0 <= k < m ==> beats(s[m], s[k]))
    decreases |s|
  {
    var n := |s|;
    var prefix := s[..n - 1];
    if n > 1 {
      StrictWeakOnPrefix(beats, s);
      assert forall k :: 0 <= k < |prefix| ==> prefix[k] == s[k];
      ExtremumIsEarliestBest(prefix, beats, seed);
      var p := Extremum(prefix, beats, seed).value;
      PrefixFactsHold(s, prefix, beats, p);
      if beats(s[n - 1], s[p]) {
        LastTakesOver(s, beats, seed, p);
      } else {
        BestOfRestStays(s, beats, seed, p);
      }
    } else {
      assert Irreflexive(beats, s[0]);
    }
  }

  /** ct_list_max: the seed `minPossible`, replaced by every element greater
      than the running maximum. Returns the value the returned pointer refers to. */
  method Max<T>(l: List<T>, greater: (T, T) -> bool, minPossible: T) returns (r: T)
    ensures r == match Extremum(l.elems, greater, minPossible)
                 case None => minPossible
                 case Some(k) => l.elems[k]
  {
    r := Fold(l.elems, greater, minPossible);
  }

  /** ct_list_min: the seed `maxPossible`, replaced by every element less than
      the running minimum. */
  method Min<T>(l: List<T>, less: (T, T) -> bool, maxPossible: T) returns (r: T)
    ensures r == match Extremum(l.elems, less, maxPossible)
                 case None => maxPossible
                 case Some(k) => l.elems[k]
  {
    r := Fold(l.elems, less, maxPossible);
  }

  /** The loop shared by ct_list_max and ct_list_min. */
  method Fold<T>(s: seq<T>, beats: (T, T) -> bool, seed: T) returns (r: T)
    ensures r == match Extremum(s, beats, seed)
                 case None => seed
                 case Some(k) => s[k]
  {
    r := seed;
    ghost var best: Option<nat> := None;
    var i := 0;
    while i < |s|
      invariant 0 <= i <= |s|
      invariant best == Extremum(s[..i], beats, seed)
      invariant r == match best case None => seed case Some(k) => s[k]
    {
      assert s[..i + 1][..i] == s[..i];
      if beats(s[i], r) {
        r := s[i];
        best := Some(i);
      }
      i := i + 1;
    }
    assert s[..i] == s;
  }

  /** The integer orders of the examples below. */
  predicate Greater(a: int, b: int) { a > b }
  predicate Less(a: int, b: int) { a < b }

  /** Pairs ordered by their first component only, so pairs with equal keys tie. */
  predicate KeyGreater(a: (int, int), b: (int, int)) { a.0 > b.0 }

  /** The example [3, 1, 4, 1, 5, 9, 2, 6] with seed 0: the greatest element
      is 9, at index 5. */
  lemma MaxExample()
    ensures Extremum([3, 1, 4, 1, 5, 9, 2, 6], Greater, 0) == Some(5)
  {
  }

  /** The same list with seed 100: the least element is the first 1, at
      index 1, not the equal one at index 3. */
  lemma MinExample()
    ensures Extremum([3, 1, 4, 1, 5, 9, 2, 6], Less, 100) == Some(1)
  {
    assert Extremum([3], Less, 100) == Some(0);
    assert [3, 1][..1] == [3];
    assert Extremum([3, 1], Less, 100) == Some(1);
    assert [3, 1, 4][..2] == [3, 1];
    assert Extremum([3, 1, 4], Less, 100) == Some(1);
    assert [3, 1, 4, 1][..3] == [3, 1, 4];
    assert Extremum([3, 1, 4, 1], Less, 100) == Some(1);
    assert [3, 1, 4, 1, 5][..4] == [3, 1, 4, 1];
    assert Extremum([3, 1, 4, 1, 5], Less, 100) == Some(1);
    assert [3, 1, 4, 1, 5, 9][..5] == [3, 1, 4, 1, 5];
    assert Extremum([3, 1, 4, 1, 5, 9], Less, 100) == Some(1);
    assert [3, 1, 4, 1, 5, 9, 2][..6] == [3, 1, 4, 1, 5, 9];
    assert Extremum([3, 1, 4, 1, 5, 9, 2], Less, 100) == Some(1);
    assert [3, 1, 4, 1, 5, 9, 2, 6][..7] == [3, 1, 4, 1, 5, 9, 2];
    assert Extremum([3, 1, 4, 1, 5, 9, 2, 6], Less, 100) == Some(1);
  }

  /** A tie between different values: of (1, 0) and (1, 1), equal in key, the
      fold keeps the earlier one, and the key order is a strict weak order. */
  lemma MaxTieExample()
    ensures StrictWeakOn(KeyGreater, [(1, 0), (1, 1)])
    ensures Extremum([(1, 0), (1, 1)], KeyGreater, (0, 0)) == Some(0)
  {
  }
}

=== FILE: list_structure.dfy ===
/** Structural operations of the dynamic array: find, compare, swap, reverse,
    cat, copy and clear. */
module ListStructure {
  import opened Lists
  import opened ListEdit

  /** ct_list_find: a linear scan for the first element byte-equal to `val`;
      -1 when there is none. */
  method Find<T(==)>(l: List<T>, val: T) returns (pos: int)
    ensures -1 <= pos < |l.elems|
    ensures pos == -1 <==> val !in l.elems
    ensures pos >= 0 ==> l.elems[pos] == val && val !in l.elems[..pos]
  {
    pos := -1;
    var i := 0;
    while i < |l.elems|
      invariant 0 <= i <= |l.elems|
      invariant val !in l.elems[..i]
    {
      if l.elems[i] == val {
        pos := i;
        return;
      }
      i := i + 1;
    }
    assert l.elems[..i] == l.elems;
  }

  /** The elements of `a` and `b` agree from index `i` on; the element loop of
      ct_list_compare, which stops at the first difference. */
  function SameFrom<T(==)>(a: seq<T>, b: seq<T>, i: nat): (r: bool)
    requires |a| == |b| && i <= |a|
    ensures r <==> forall k :: i <= k < |a| ==> a[k] == b[k]
    decreases |a| - i
  {
    i == |a| || (a[i] == b[i] && SameFrom(a, b, i + 1))
  }

  /** ct_list_compare: 1 when the element widths differ, else 2 when the
      lengths differ, else 3 when some element differs, else 0. */
  function Compare<T(==)>(a: List<T>, b: List<T>): (code: nat)
    ensures code <= 3
    ensures code == 1 <==> a.typeSize != b.typeSize
    ensures code == 2 <==> a.typeSize == b.typeSize && |a.elems| != |b.elems|
    ensures code == 3 <==> a.typeSize == b.typeSize && |a.elems| == |b.elems|
                           && exists k :: 0 <= k < |a.elems| && a.elems[k] != b.elems[k]
    ensures code == 0 <==> a.typeSize == b.typeSize && a.elems == b.elems
  {
    if a.typeSize != b.typeSize then 1
    else if |a.elems| != |b.elems| then 2
    else if SameFrom(a.elems, b.elems, 0) then 0
    else 3
  }

  /** Every list compares equal to itself, and the comparison is symmetric. */
  lemma CompareReflexiveSymmetric<T>(a: List<T>, b: List<T>)
    ensures Compare(a, a) == 0
    ensures Compare(a, b) == Compare(b, a)
  {
  }

  /** ct_list_swap: the elements at `i` and `j` trade places (through a
      one-element temporary), nothing else moves. */
  function Swap<T>(l: List<T>, i: nat, j: nat): (r: List<T>)
    requires i < |l.elems| && j < |l.elems|
    ensures |r.elems| == |l.elems|
    ensures r.elems[i] == l.elems[j] && r.elems[j] == l.elems[i]
    ensures forall k :: 0 <= k < |l.elems| && k != i && k != j ==> r.elems[k] == l.elems[k]
    ensures multiset(r.elems) == multiset(l.elems)
    ensures r.capacity == l.capacity && r.factor == l.factor && r.typeSize == l.typeSize
  {
    var saved := l.elems[i];
    l.(elems := l.elems[i := l.elems[j]][j := saved])
  }

  /** Swapping the same pair twice restores the list; the order of the pair
      does not matter. */
  lemma SwapInvolution<T>(l: List<T>, i: nat, j: nat)
    requires i < |l.elems| && j < |l.elems|
    ensures Swap(Swap(l, i, j), i, j) == l
    ensures Swap(l, i, j) == Swap(l, j, i)
  {
  }

  /** Reference definition: `s` read back to front. */
  function Reversed<T>(s: seq<T>): (r: seq<T>)
    ensures |r| == |s|
    ensures forall k :: 0 <= k < |s| ==> r[k] == s[|s| - 1 - k]
    decreases |s|
  {
    if |s| == 0 then [] else [s[|s| - 1]] + Reversed(s[..|s| - 1])
  }

  /** Reading a sequence back to front twice gives it back. */
  lemma ReversedInvolution<T>(s: seq<T>)
    ensures Reversed(Reversed(s)) == s
  {
  }

  /** ct_list_reverse: swaps `i` and `size - i - 1` for every `i` below
      `size / 2`. */
  method Reverse<T>(l: List<T>) returns (r: List<T>)
    ensures r == l.(elems := Reversed(l.elems))
  {
    var n := |l.elems|;
    var middle := n / 2;
    r := l;
    var i := 0;
    while i < middle
      invariant 0 <= i <= middle
      invariant r == l.(elems := r.elems) && |r.elems| == n
      invariant forall k :: 0 <= k < i ==> r.elems[k] == l.elems[n - 1 - k]
      invariant forall k :: n - i <= k < n ==> r.elems[k] == l.elems[n - 1 - k]
      invariant forall k :: i <= k < n - i ==> r.elems[k] == l.elems[k]
    {
      r := Swap(r, i, n - i - 1);
      i := i + 1;
    }
    assert r.elems == Reversed(l.elems);
  }

  /** Growth as cat and copy evidently need it: the capacity is multiplied by
      the factor until the `size` elements fit strictly below it, and stops at
      the first multiple that does. When the buffer cannot grow (zero capacity
      or a factor below two) it behaves like the single step of
      ct_list_resize. */
  function GrowToFit(capacity: nat, factor: nat, size: nat): (c: nat)
    ensures size < capacity ==> c == capacity
    ensures factor >= 2 && capacity > 0 ==> size < c
    ensures factor >= 2 && capacity > 0 && size >= capacity ==> c <= size * factor
    decreases if factor >= 2 && capacity > 0 && size >= capacity then size - capacity + 1 else 0
  {
    if size < capacity then capacity
    else if factor < 2 || capacity == 0 then capacity * factor
    else
      var next := capacity * factor;
      if size < next then next else GrowToFit(next, factor, size)
  }

  /** ct_list_cat as written: `src` is appended to `dest` after a single
      growth step. Both lists hold elements of the same width. */
  function CatAsWritten<T>(dest: List<T>, src: List<T>): (r: List<T>)
    requires dest.typeSize == src.typeSize
    ensures r.elems == dest.elems + src.elems
    ensures |dest.elems| + |src.elems| < dest.capacity ==> r.capacity == dest.capacity
    ensures |dest.elems| + |src.elems| >= dest.capacity ==> r.capacity == dest.capacity * dest.factor
    ensures r.factor == dest.factor && r.typeSize == dest.typeSize
  {
    Resize(dest.(elems := dest.elems + src.elems))
  }

  /** One growth step does not cover a long source: concatenating 25
      elements onto an empty list of capacity 10 leaves a capacity of 20, and
      the copy loop writes five elements past the buffer. */
  lemma CatAsWrittenOverflows()
    ensures var src := List(seq(25, k => k), 40, 2, 4);
            var r := CatAsWritten(Init<int>(4), src);
            r.capacity == 20 && |r.elems| == 25 && !Valid(r)
  {
  }

  /** ct_list_cat as evidently intended: `dest` grows until `src` fits, then
      holds its old elements followed by those of `src`. `src` is a value and
      is left as it was. */
  function Cat<T>(dest: List<T>, src: List<T>): (r: List<T>)
    requires dest.typeSize == src.typeSize
    ensures r.elems == dest.elems + src.elems
    ensures |r.elems| == |dest.elems| + |src.elems|
    ensures dest.factor >= 2 && dest.capacity > 0 ==> Valid(r)
    ensures r.capacity == GrowToFit(dest.capacity, dest.factor, |r.elems|)
    ensures r.factor == dest.factor && r.typeSize == dest.typeSize
  {
    var size := |dest.elems| + |src.elems|;
    dest.(elems := dest.elems + src.elems, capacity := GrowToFit(dest.capacity, dest.factor, size))
  }

  /** When one growth step is enough, the corrected cat is the original. */
  lemma CatAgreesWithinOneStep<T>(dest: List<T>, src: List<T>)
    requires dest.typeSize == src.typeSize
    requires |dest.elems| + |src.elems| < dest.capacity * dest.factor
    ensures Cat(dest, src) == CatAsWritten(dest, src)
  {
  }

  /** The first elements of the concatenation read as `dest`, the rest as `src`. */
  lemma CatReadsBothParts<T>(dest: List<T>, src: List<T>)
    requires dest.typeSize == src.typeSize
    ensures forall k :: 0 <= k < |dest.elems| ==> Get(Cat(dest, src), k) == Get(dest, k)
    ensures forall k :: 0 <= k < |src.elems| ==> Get(Cat(dest, src), |dest.elems| + k) == Get(src, k)
  {
  }

  /** ct_list_copy as written: `dest` takes the length and elements of `src`
      after a single growth step; its old elements are overwritten without a
      destructor. Both lists hold elements of the same width. */
  function CopyAsWritten<T>(dest: List<T>, src: List<T>): (r: List<T>)
    requires dest.typeSize == src.typeSize
    ensures r.elems == src.elems
    ensures |src.elems| < dest.capacity ==> r.capacity == dest.capacity
    ensures |src.elems| >= dest.capacity ==> r.capacity == dest.capacity * dest.factor
    ensures r.factor == dest.factor && r.typeSize == dest.typeSize
  {
    Resize(dest.(elems := src.elems))
  }

  /** Copying 25 elements into an empty list of capacity 10 leaves a
      capacity of 20: the copy writes five elements past the buffer. */
  lemma CopyAsWrittenOverflows()
    ensures var src := List(seq(25, k => k), 40, 2, 4);
            var r := CopyAsWritten(Init<int>(4), src);
            r.capacity == 20 && |r.elems| == 25 && !Valid(r)
  {
  }

  /** ct_list_copy as evidently intended: `dest` grows until the elements of
      `src` fit, then holds exactly those elements. */
  function Copy<T>(dest: List<T>, src: List<T>): (r: List<T>)
    requires dest.typeSize == src.typeSize
    ensures r.elems == src.elems
    ensures dest.factor >= 2 && dest.capacity > 0 ==> Valid(r)
    ensures r.capacity == GrowToFit(dest.capacity, dest.factor, |src.elems|)
    ensures r.factor == dest.factor && r.typeSize == dest.typeSize
  {
    dest.(elems := src.elems, capacity := GrowToFit(dest.capacity, dest.factor, |src.elems|))
  }

  /** A copy compares equal to its source. */
  lemma CopyThenCompareIsZero<T>(dest: List<T>, src: List<T>)
    requires dest.typeSize == src.typeSize
    ensures Compare(Copy(dest, src), src) == 0
  {
  }

  /** When one growth step is enough, the corrected copy is the original. */
  lemma CopyAgreesWithinOneStep<T>(dest: List<T>, src: List<T>)
    requires dest.typeSize == src.typeSize
    requires |src.elems| < dest.capacity * dest.factor
    ensures Copy(dest, src) == CopyAsWritten(dest, src)
  {
  }

  /** ct_list_clear_ex: the destructor runs on every element unless the keep
      flag is set, then the length drops to zero; the capacity stays. */
  function ClearEx<T>(l: List<T>, keep: bool): (r: Removal<T>)
    ensures |r.list.elems| == 0 && Valid(r.list)
    ensures r.list.capacity == l.capacity && r.list.factor == l.factor
    ensures r.list.typeSize == l.typeSize
    ensures keep ==> r.destroyed == []
    ensures !keep ==> r.destroyed == l.elems
  {
    Removal(l.(elems := []), if keep then [] else l.elems)
  }

  /** ct_list_clear: clearing with the keep flag set. */
  function Clear<T>(l: List<T>): (r: List<T>)
    ensures Len(r) == 0 && Size(r) == 0
    ensures r.capacity == l.capacity && r.factor == l.factor && r.typeSize == l.typeSize
  {
    ClearEx(l, true).list
  }
}

=== FILE: lists.dfy ===
/** The state of a type-erased dynamic array (the `List` record of ct_list.c)
    and the growth policy every length-increasing operation runs through.

    The buffer is abstracted to the sequence of live elements; byte equality
    (`memcmp`) is Dafny equality on the element type. The capacity is kept as a
    number of slots so that the memory-safety invariant `length <= capacity`
    can be stated and checked against each operation. */
module Lists {

  /** Capacity and growth factor used by the plain initializer. */
  const DefaultCapacity: nat := 10
  const DefaultFactor: nat := 2

  /** Number of entries of the scratch table used by batched value removal. */
  const MaxDeleteBuf: nat := 1024

  /** One more than the largest value of the C `uint` counters. */
  const UintLimit: nat := 0x1_0000_0000

  datatype Option<T> = None | Some(value: T) {
    /** The carried value, or `default` when there is none. */
    function GetOr(default: T): T {
      match this
      case Some(v) => v
      case None => default
    }
  }

  /** The smaller of two naturals. */
  function MinNat(a: nat, b: nat): nat {
    if a <= b then a else b
  }

  /** A dynamic array: the live elements in index order, the number of element
      slots the buffer currently holds, the factor the capacity is multiplied by
      when it runs out, and the byte width of one element. */
  datatype List<T> = List(elems: seq<T>, capacity: nat, factor: nat, typeSize: nat)

  /** The buffer holds every live element. */
  predicate Valid<T>(l: List<T>) {
    |l.elems| <= l.capacity
  }

  /** ct_list_init_ex: an empty list with the given element width, capacity and factor. */
  function InitEx<T>(typeSize: nat, capacity: nat, factor: nat): (l: List<T>)
    ensures Valid(l) && |l.elems| == 0
    ensures l.capacity == capacity && l.factor == factor && l.typeSize == typeSize
  {
    List([], capacity, factor, typeSize)
  }

  /** ct_list_init: the initializer with the default capacity and factor. */
  function Init<T>(typeSize: nat): (l: List<T>)
    ensures Valid(l) && Len(l) == 0 && Size(l) == 0
    ensures l.capacity == DefaultCapacity && l.factor == DefaultFactor && l.typeSize == typeSize
  {
    InitEx(typeSize, DefaultCapacity, DefaultFactor)
  }

  /** ct_list_resize, run after the length has been raised: when the live
      elements no longer fit strictly below the capacity, the capacity is
      multiplied by the factor, once. Reallocation keeps every element at its
      index. */
  function Resize<T>(l: List<T>): (r: List<T>)
    ensures r.elems == l.elems && r.factor == l.factor && r.typeSize == l.typeSize
    ensures r.capacity == l.capacity || r.capacity == l.capacity * l.factor
    ensures |l.elems| < l.capacity ==> r == l
    ensures |l.elems| >= l.capacity ==> r.capacity == l.capacity * l.factor
  {
    if |l.elems| < l.capacity then l
    else l.(capacity := l.capacity * l.factor)
  }

  /** With a factor of at least two and a non-empty buffer, one growth step
      makes room again after one element was added to a valid list. */
  lemma ResizeMakesRoomForOne<T>(l: List<T>)
    requires |l.elems| <= l.capacity + 1
    requires l.factor >= 2 && l.capacity > 0
    ensures Valid(Resize(l))
  {
  }

  /** With a zero capacity or a factor of at most one the buffer never grows:
      growth leaves the capacity where it was, or shrinks it to zero. */
  lemma ResizeStalls<T>(l: List<T>)
    requires l.capacity == 0 || l.factor <= 1
    ensures Resize(l).capacity <= l.capacity
  {
  }

  /** A single growth step is all the list gets: a list whose length has
      reached the capacity is valid afterwards exactly when the length does not
      exceed capacity times factor. */
  lemma ResizeFitsOnlyWithinOneStep<T>(l: List<T>)
    requires |l.elems| >= l.capacity
    ensures Valid(Resize(l)) <==> |l.elems| <= l.capacity * l.factor
  {
  }

  /** ct_list_len: the number of live elements. */
  function Len<T>(l: List<T>): (n: nat)
    ensures n == |l.elems|
  {
    |l.elems|
  }

  /** ct_list_size: the number of live bytes, computed in 32-bit unsigned
      arithmetic, so the product wraps around. */
  function Size<T>(l: List<T>): (bytes: nat)
    ensures bytes < UintLimit
    ensures |l.elems| * l.typeSize < UintLimit ==> bytes == |l.elems| * l.typeSize
  {
    (|l.elems| * l.typeSize) % UintLimit
  }
}
